=== FILE: README.md ===
# Flight-log analysis core, modelled in Dafny

`analyze_flight.py` reads the telemetry that an X-Plane plugin logs for a
flight scenario and summarises it. This project models the script's pure
core and proves properties about it:

- **`read_xplane_data`.** The lines of a log file are filtered to data
  lines. A data line is non-blank after trimming, holds a `|`, and does not
  name `pitch`, so the header is excluded. Each data line is split on `|`,
  trimmed, stripped of empty pieces and converted to numbers. The rows are
  then bound to the nine-column schema `pitch, roll, heading_true,
  heading_mag, mag_var, mag_comp, P, Q, R`.
- **The numeric part of `analyze_scenario`.** This covers:
  - the attitude projection (`pitch, roll, heading_true`);
  - the body-rate projection (`P, Q, R`);
  - the per-column mean and peak-to-peak range of the attitude columns;
  - the largest magnitude and the mean of the rate columns;
  - the time axis at the logger's 5 writes per second.

Modules, one per file:

| module | file | contents |
|---|---|---|
| `Results` | results.dfy | `Option`, `Result`, the failures a scenario can hit, and `MapAll`, which is the all-or-first-exception loop |
| `Text` | text.dfy | Python's `str.strip` (with the exact `isspace` set), `split`, `join`, substring test, and the filtering comprehension |
| `Parser` | parser.dfy | `read_xplane_data`: line selection, field extraction, number conversion and the nine-column table |
| `Statistics` | statistics.dfy | `np.mean`, `np.ptp`, `np.max(np.abs(...))` |
| `Analysis` | analysis.dfy | `analyze_scenario`: projections, time axis, the report |
| `Frame` | frame.dfy | how pandas actually builds the frame from ragged rows (see Findings) |

Modelling choices:

- `float()` is a parameter `parse: string -> Option<real>`. `None` means the
  conversion raises `ValueError`.
- The file is `Option<seq<string>>`, holding its lines. `None` means it does
  not exist.
- Every exception the script's per-scenario handler catches becomes an `Err`
  of `Results.Error`.
- Numbers are exact reals.

## Model

| member | source | states |
|---|---|---|
| Results.MapAll | analyze_flight.py:18-20 | A loop that converts every element succeeds exactly when each element converts. On success it keeps length and order. On failure it reports the first element that failed. |
| Text.Strip | analyze_flight.py:16 | Trimming never lengthens a string. The result is empty exactly when the string is all whitespace. The result has no whitespace at either end. |
| Text.StripCharacterized | analyze_flight.py:16 | `t` is the trimmed form of `s` if and only if `s` is `t` with whitespace before and after, and `t` has no whitespace at its ends. |
| Text.StripIdentity | analyze_flight.py:19 | Trimming a string that has no whitespace at its ends leaves it unchanged. |
| Text.Split | analyze_flight.py:19 | Splitting on the bar separator gives one more piece than the line has separators, and no piece contains a separator. |
| Text.JoinSplit | analyze_flight.py:19 | Joining the pieces of a split with the separator gives back the original line. |
| Text.SplitJoin | analyze_flight.py:19 | Splitting a join of separator-free pieces gives back those pieces. |
| Text.FilterStrip | analyze_flight.py:16 | The comprehension never yields more items than its input. It yields exactly as many when `keep` accepts every item. |
| Text.FilterStripInOrder | analyze_flight.py:16 | Output item k is the trimmed input at the k-th kept position. The kept positions strictly increase. A position is kept if and only if `keep` accepts its item. |
| Text.FilterStripAppend | analyze_flight.py:16 | Filtering two concatenated inputs gives the concatenation of the two filtered inputs. |
| Parser.SampleOfValues | analyze_flight.py:22-23 | Reading a sample's nine fields in column order and binding them back to the column names gives the same sample. |
| Parser.ValuesSampleOf | analyze_flight.py:22-23 | Binding nine values to the column names and reading the fields back in column order gives the same nine values. |
| Parser.DataLines | analyze_flight.py:16 | Each selected line is non-empty and trimmed, holds a bar separator, and does not contain `pitch`. There are at most as many as the file has lines. |
| Parser.DataLinesInOrder | analyze_flight.py:16-20 | There is one row per data line, in file order, with no duplicates. A line is selected exactly when it is non-blank, holds a bar separator and lacks `pitch`. |
| Parser.DataLinesAppend | analyze_flight.py:16 | Selection never reorders: the data lines of a concatenated log are those of the first part followed by those of the second. |
| Parser.NonDataLineSkipped | analyze_flight.py:16 | Inserting a blank line, a line without a bar separator, or a line naming `pitch` anywhere in a log does not change what it reads to. |
| Parser.HeaderSkipped | analyze_flight.py:16 | A line containing `pitch` (the header), wherever it stands in the log, never yields a row. |
| Parser.Fields | analyze_flight.py:19 | Every field is non-empty and trimmed, and contains no bar. There are at most (number of bars) + 1 fields. |
| Parser.ParseLine | analyze_flight.py:19 | A line converts exactly when every field converts, giving one value per field in order. Otherwise it fails, naming the first rejected field. |
| Parser.ParseRows | analyze_flight.py:18-20 | All data lines convert, in order, or the read fails with the failure of the first line that does not. |
| Parser.BuildTable | analyze_flight.py:22-24 | The table exists exactly when every row has nine values. It then holds those values row by row. Otherwise it fails on the first misshapen row, and no partial table is returned. |
| Parser.TableOf | analyze_flight.py:18-24 | The table exists exactly when every data line converts to nine values. A conversion failure anywhere takes precedence over a misshapen row. |
| Parser.ReadXPlaneData | analyze_flight.py:11-24 | A missing file fails with `MissingFile`. An existing file reads if and only if every data line converts to exactly nine values; a field that does not convert fails the read with `NotANumber`. A table that is read has one row per data line (no more rows than the file has lines), and row k holds the values of data line k. |
| Parser.FormattedLine | analyze_flight.py:16-19 | A line joined from two or more printed numbers is a data line that trimming leaves alone. It splits back into exactly those numbers. |
| Parser.ReadRoundTrip | analyze_flight.py:11-24 | Printing a table as nine bar-separated fields per line, with a parser that reads each field back exactly, and then reading that log gives the table back. |
| Parser.HeaderedLogRoundTrip | analyze_flight.py:11-24 | The same round trip holds with the header line in front. |
| Statistics.MinOf | analyze_flight.py:50 | The minimum is one of the samples and is no larger than any sample. |
| Statistics.MaxOf | analyze_flight.py:50 | The maximum is one of the samples and is no smaller than any sample. |
| Statistics.Mean | analyze_flight.py:48 | The mean is NaN (`None`) exactly for an empty column. Otherwise the mean times the count is the total. |
| Statistics.Ptp | analyze_flight.py:50 | The range fails exactly on an empty column. Otherwise it bounds every difference of two samples and is attained by some pair. |
| Statistics.MaxAbs | analyze_flight.py:59 | The largest magnitude fails exactly on an empty column. Otherwise it is at least 0, at least the magnitude of every sample, and equal to the magnitude of some sample. |
| Statistics.MaxAbsFromExtremes | analyze_flight.py:59-61 | The largest magnitude is the larger of the maximum and the negated minimum. |
| Statistics.PtpZeroIffConstant | analyze_flight.py:48-56 | The range of a non-empty column is at least 0. It is 0 if and only if all samples are equal. |
| Statistics.SumBounds | analyze_flight.py:48 | If n samples all lie in [lo, hi], their total lies in [n·lo, n·hi]. |
| Statistics.MeanBounds | analyze_flight.py:48 | If a non-empty column's samples all lie in [lo, hi], so does its mean. |
| Statistics.MeanWithinExtremes | analyze_flight.py:48-64 | The mean of a non-empty column lies between its minimum and maximum. |
| Statistics.ConstantColumn | analyze_flight.py:48-56 | A constant column has that constant as its mean and a range of 0. |
| Statistics.PitchExample | analyze_flight.py:48-50 | The pitch samples 0, 10, -10, 5 have mean 1.25 and range 20. |
| Analysis.TimeAxis | analyze_flight.py:75 | The axis has one entry per row. It starts at 0, advances by exactly 1/5 s per row, and is strictly increasing. |
| Analysis.TimeAxisUnique | analyze_flight.py:75 | Any sequence that starts at 0 and advances by 1/5 per entry is the time axis of its length, so entry i is i/5. |
| Analysis.TenRowTimeAxis | analyze_flight.py:75 | Ten rows are stamped 0.0, 0.2, …, 1.8 s. |
| Analysis.EulerData | analyze_flight.py:29-32 | There is one three-value attitude row per sample. |
| Analysis.AngularRates | analyze_flight.py:34-37 | There is one three-value rate row per sample. |
| Analysis.ProjectionsPickColumns | analyze_flight.py:29-37 | Columns 0, 1, 2 of the attitude matrix are the table's pitch, roll and true-heading columns. Columns 0, 1, 2 of the rate matrix are its P, Q and R columns. |
| Analysis.AngleStats | analyze_flight.py:48-56 | The attitude summary is the column's mean, which lies between the extremes, and its range. The range is at least 0, is attained, bounds every difference, and is 0 exactly for a constant column. |
| Analysis.RateSummary | analyze_flight.py:59-64 | The rate summary is the largest magnitude (attained, bounding every sample) and the mean, which lies between the extremes. |
| Analysis.AnalyzeScenario | analyze_flight.py:26-81 | The analysis fails exactly on an empty table. Otherwise the report's time axis is `TimeAxis` of the row count (entry i is i/5 s), its attitude and rate matrices are the projections of the table, and the scenario name is kept. |
| Analysis.ReportDescribesTable | analyze_flight.py:46-65 | Each of the twelve statistics summarises the table column it is named after. |
| Analysis.ConstantAngle | analyze_flight.py:48-56 | Any summary of a constant attitude column has that constant as its mean and a range of 0. |
| Analysis.ConstantAttitude | analyze_flight.py:48-56 | A scenario flown at constant attitude reports that attitude as its means and zero attitude ranges. |
| Frame.MaxWidth | analyze_flight.py:24 | The frame width is at least every row's length and equals the length of some row. It is 0 for no rows. |
| Frame.BuildFrame | analyze_flight.py:22-24 | As pandas builds the frame, it fails exactly when some row is longer than nine, or there is at least one row and every row is shorter than nine. With no rows it builds an empty frame. Otherwise each row has nine cells: its own values, then NaN. |
| Frame.ReadFrame | analyze_flight.py:11-24 | The read as the library performs it. A missing file fails. An existing file reads if and only if every data line converts, none gives more than nine values, and (unless there are no data lines) some line gives exactly nine. When the read succeeds, there is one frame row per data line, and row k holds line k's values followed by NaN up to nine cells. |
| Frame.FrameGapFreeIffTable | analyze_flight.py:22-24 | The frame has no NaN cell if and only if the strict table exists. When it does, both hold the same values. |
| Frame.TruncatedLineBecomesNaN | analyze_flight.py:19-24 | Take a full line of nine numbers followed by a line of at least two printed numbers cut short at a field boundary. The library reads it, with NaN in the missing cells. The strict table fails, reporting the short row's position and width. |

## Left out

- Quaternion conversion (`R.from_euler(...).as_quat()`, analyze_flight.py:40-43, 66-71) is not modelled. It is a foreign scipy call using trigonometric floating point. The library returns quaternions scalar-last (x, y, z, w), so the statistic labelled `w_std` is in fact computed over the x component.
- `np.std` (analyze_flight.py:49, 52, 55, 67-70) is not modelled: a floating-point square root.
- File reading (analyze_flight.py:14-15) becomes the input `Option<seq<string>>`. `None` stands for `FileNotFoundError`. Line terminators left by `readlines` are ordinary whitespace that trimming removes. Other failures of the read itself (a `UnicodeDecodeError` from text-mode decoding, `PermissionError`, `IsADirectoryError`) have no counterpart in this input; `main` catches every `Exception` and skips the scenario on each of them, as it does on `FileNotFoundError`.
- The grammar `float()` accepts (signs, exponents, underscores) is not modelled. It is the parameter `parse`, so the parsing properties hold for every number parser that returns finite values.
- Non-finite results of `float()` are outside the model. The texts `nan`, `inf` and `-inf` convert to NaN and infinities, which `parse: string -> Option<real>` cannot return. On such samples numpy breaks the statistics properties: the range of `[inf, inf]` is NaN rather than 0, and a NaN sample is neither between the extremes nor bounded by the largest magnitude.
- Floating-point rounding is not modelled: samples, means and time stamps are exact reals. For example, the stamp 0.2 s is exact here but is rounded in binary64.
- pandas `iterrows` mechanics (analyze_flight.py:31, 36) become direct access to the fields of a `Sample`.
- `Statistics.Mean` returns `None` for an empty column, where numpy returns NaN with a warning. Inside the analysis that case cannot arise, because an empty table fails first.
- `Analysis.AnalyzeScenario` does not repeat the statistics' properties in its own contract. `Analysis.ReportDescribesTable` states them instead.
- Plotting (`plot_scenario`, analyze_flight.py:83-133) is presentation only and is not modelled.
- The driver `main` (analyze_flight.py:135-179) is not modelled: printing, `savefig`, and the loop that skips a scenario on any exception. Each failure it catches is a `Results.Error` returned by the modelled functions.
- Frame: NaN propagation through the statistics of a padded frame is not modelled. Only the padding itself is modelled. The statistics are modelled over the strict table.

## Findings

The table is built with `pd.DataFrame(data, columns=...)` (analyze_flight.py:24). The column-count check this relies on is weaker than it looks:

- pandas widens rows of unequal length to the longest row, filling the gaps with NaN.
- It raises only when that longest row is not exactly nine wide: when some row has more than nine values, or, for a non-empty log, every row has fewer. A log with no data lines gives an empty frame.

So a log whose last line was cut short at a field boundary, after at least one full nine-field line, reads without error. The missing cells then make the mean, range and maximum of those columns NaN. A line cut inside a number fails only when what is left of that field is not a number (a lone `-`, or `1.5e`). A cut that leaves a number (`12.5` cut to `12`) reads that shorter number into the cell, so the cell holds a wrong value without any error. The rest of this model uses the strict reading: every data line must give exactly nine values.

| source | as written | input that shows it | evidently intended | confidence | as-written member | corrected member |
|---|---|---|---|---|---|---|
| analyze_flight.py:19-24 | A data line with fewer than nine fields becomes a row padded with NaN, as long as some other row has nine fields and no row has more than nine. | A full line of nine zeros separated by bars followed by the truncated line of two zeros separated by a bar | Every data line gives exactly nine values, or the read fails | medium; not executed | Frame.TruncatedLineBecomesNaN | Parser.BuildTable |

=== FILE: analysis.dfy ===
/** `analyze_scenario`: the table of one scenario is projected onto its
    attitude columns and its body-rate columns, given a time axis at the
    logger's fixed write rate, and summarised column by column. */
module Analysis {
  import opened Results
  import opened Parser
  import opened Statistics

  /** Telemetry rows written per second. */
  const SampleRate: real := 5.0

  /** Positions of the analysed columns in the table's schema. */
  const PitchColumn: nat := 0
  const RollColumn: nat := 1
  const HeadingTrueColumn: nat := 2
  const PColumn: nat := 6
  const QColumn: nat := 7
  const RColumn: nat := 8

  /** `np.arange(n) / sample_rate`: the time stamp of every row. It starts at
      zero and advances by one write period per row. */
  function TimeAxis(n: nat): (t: seq<real>)
    ensures |t| == n
    ensures n > 0 ==> t[0] == 0.0
    ensures forall i :: 0 < i < n ==> t[i] - t[i - 1] == 1.0 / SampleRate
    ensures forall i, j :: 0 <= i < j < n ==> t[i] < t[j]
  {
    seq(n, i requires 0 <= i => (i as real) / SampleRate)
  }

  /** A sequence that starts at zero and advances by one write period per
      entry has reached `i / SampleRate` at entry `i`. */
  lemma {:induction false} StepsFromZero(t: seq<real>, i: nat)
    requires |t| > 0 ==> t[0] == 0.0
    requires forall k :: 0 < k < |t| ==> t[k] - t[k - 1] == 1.0 / SampleRate
    requires i < |t|
    ensures t[i] == (i as real) / SampleRate
  {
    if i > 0 {
      StepsFromZero(t, i - 1);
      assert t[i] == t[i - 1] + 1.0 / SampleRate;
    }
  }

  /** The time axis is the only sequence of its length that starts at zero
      and advances by one write period per row. */
  lemma {:induction false} TimeAxisUnique(t: seq<real>)
    requires |t| > 0 ==> t[0] == 0.0
    requires forall k :: 0 < k < |t| ==> t[k] - t[k - 1] == 1.0 / SampleRate
    ensures t == TimeAxis(|t|)
  {
    forall i | 0 <= i < |t|
      ensures t[i] == TimeAxis(|t|)[i]
    {
      StepsFromZero(t, i);
    }
  }

  /** A ten-row table spans 0.0 s to 1.8 s in steps of 0.2 s. */
  lemma TenRowTimeAxis()
    ensures TimeAxis(10) == [0.0, 0.2, 0.4, 0.6, 0.8, 1.0, 1.2, 1.4, 1.6, 1.8]
  {
  }

  /** The values of column `c` of the table, in row order. */
  function TableColumn(table: seq<Sample>, c: nat): (col: seq<real>)
    requires c < ColumnCount
    ensures |col| == |table|
    ensures forall i :: 0 <= i < |table| ==> col[i] == Values(table[i])[c]
  {
    seq(|table|, i requires 0 <= i < |table| => Values(table[i])[c])
  }

  /** Column `j` of a matrix whose rows all have more than `j` entries
      (numpy's `m[:, j]`). */
  function Column(m: seq<seq<real>>, j: nat): seq<real>
    requires forall i :: 0 <= i < |m| ==> j < |m[i]|
  {
    seq(|m|, i requires 0 <= i < |m| => m[i][j])
  }

  /** `euler_data`: one `[pitch, roll, heading_true]` row per sample. */
  function EulerData(table: seq<Sample>): (m: seq<seq<real>>)
    ensures |m| == |table|
    ensures forall i :: 0 <= i < |m| ==> |m[i]| == 3
  {
    seq(|table|, i requires 0 <= i < |table| => [table[i].pitch, table[i].roll, table[i].headingTrue])
  }

  /** `angular_rates`: one `[P, Q, R]` row per sample. */
  function AngularRates(table: seq<Sample>): (m: seq<seq<real>>)
    ensures |m| == |table|
    ensures forall i :: 0 <= i < |m| ==> |m[i]| == 3
  {
    seq(|table|, i requires 0 <= i < |table| => [table[i].P, table[i].Q, table[i].R])
  }

  /** The statistics of the three attitude columns. */
  datatype EulerStats = EulerStats(
    pitchMean: real, pitchRange: real,
    rollMean: real, rollRange: real,
    headingMean: real, headingRange: real)

  /** The statistics of the three body-rate columns. */
  datatype RateStats = RateStats(
    pMax: real, qMax: real, rMax: real,
    pMean: real, qMean: real, rMean: real)

  /** What the analysis of one scenario returns (quaternions left out). */
  datatype Report = Report(
    time: seq<real>,
    eulerData: seq<seq<real>>,
    angularRates: seq<seq<real>>,
    euler: EulerStats,
    rates: RateStats,
    scenario: string)

  /** `mean` and `range` summarise the attitude column `col`: the mean lies
      between the extremes and times the count is the total; the range is
      the largest difference of two samples, attained by some pair, and it
      is zero exactly when the column is constant. */
  ghost predicate SummarisesAngle(col: seq<real>, mean: real, range: real) {
    && |col| > 0
    && Mean(col) == Some(mean)
    && MinOf(col) <= mean <= MaxOf(col)
    && 0.0 <= range
    && (forall i, j :: 0 <= i < |col| && 0 <= j < |col| ==> col[i] - col[j] <= range)
    && (exists i, j :: 0 <= i < |col| && 0 <= j < |col| && col[i] - col[j] == range)
    && (range == 0.0 <==> forall i, j :: 0 <= i < |col| && 0 <= j < |col| ==> col[i] == col[j])
  }

  /** `maxAbs` and `mean` summarise the rate column `col`: no sample is
      larger in magnitude than `maxAbs`, some sample reaches it; `mean` is the
      mean, between the extremes. */
  ghost predicate SummarisesRate(col: seq<real>, maxAbs: real, mean: real) {
    && |col| > 0
    && 0.0 <= maxAbs
    && (forall i :: 0 <= i < |col| ==> Abs(col[i]) <= maxAbs)
    && (exists i :: 0 <= i < |col| && Abs(col[i]) == maxAbs)
    && Mean(col) == Some(mean)
    && MinOf(col) <= mean <= MaxOf(col)
  }

  /** The mean and range of a non-empty column. */
  function AngleStats(col: seq<real>): (r: (real, real))
    requires |col| > 0
    ensures SummarisesAngle(col, r.0, r.1)
  {
    MeanWithinExtremes(col);
    PtpZeroIffConstant(col);
    (Mean(col).value, Ptp(col).value)
  }

  /** The largest magnitude and the mean of a non-empty column. */
  function RateSummary(col: seq<real>): (r: (real, real))
    requires |col| > 0
    ensures SummarisesRate(col, r.0, r.1)
  {
    MeanWithinExtremes(col);
    (MaxAbs(col).value, Mean(col).value)
  }

  /** `analyze_scenario`. An empty table fails: its `euler_data` has no
      columns to index, so the first statistic raises. */
  function AnalyzeScenario(table: seq<Sample>, scenario: string): (r: Result<Report, Error>)
    ensures r.Err? <==> |table| == 0
    ensures r.Err? ==> r.error == EmptyTable
    ensures r.Ok? ==> |r.value.time| == |r.value.eulerData| == |r.value.angularRates| == |table|
    ensures r.Ok? ==> r.value.scenario == scenario
    ensures r.Ok? ==> r.value.time == TimeAxis(|table|)
    ensures r.Ok? ==> r.value.eulerData == EulerData(table) && r.value.angularRates == AngularRates(table)
  {
    if |table| == 0 then Err(EmptyTable)
    else
      var euler := EulerData(table);
      var rates := AngularRates(table);
      var pitch := AngleStats(Column(euler, 0));
      var roll := AngleStats(Column(euler, 1));
      var heading := AngleStats(Column(euler, 2));
      var pRate := RateSummary(Column(rates, 0));
      var qRate := RateSummary(Column(rates, 1));
      var rRate := RateSummary(Column(rates, 2));
      Ok(Report(
        TimeAxis(|table|), euler, rates,
        EulerStats(pitch.0, pitch.1, roll.0, roll.1, heading.0, heading.1),
        RateStats(pRate.0, qRate.0, rRate.0, pRate.1, qRate.1, rRate.1),
        scenario))
  }

  /** The projections pick the right columns: `euler_data` holds the pitch,
      roll and true-heading columns of the table in that order, and
      `angular_rates` holds the P, Q and R columns. */
  lemma ProjectionsPickColumns(table: seq<Sample>)
    ensures Column(EulerData(table), 0) == TableColumn(table, PitchColumn)
    ensures Column(EulerData(table), 1) == TableColumn(table, RollColumn)
    ensures Column(EulerData(table), 2) == TableColumn(table, HeadingTrueColumn)
    ensures Column(AngularRates(table), 0) == TableColumn(table, PColumn)
    ensures Column(AngularRates(table), 1) == TableColumn(table, QColumn)
    ensures Column(AngularRates(table), 2) == TableColumn(table, RColumn)
  {
  }

  /** Every statistic of a report describes the table column it is named
      after. */
  lemma {:induction false} ReportDescribesTable(table: seq<Sample>, scenario: string)
    requires |table| > 0
    ensures var rep := AnalyzeScenario(table, scenario).value;
      && SummarisesAngle(TableColumn(table, PitchColumn), rep.euler.pitchMean, rep.euler.pitchRange)
      && SummarisesAngle(TableColumn(table, RollColumn), rep.euler.rollMean, rep.euler.rollRange)
      && SummarisesAngle(TableColumn(table, HeadingTrueColumn), rep.euler.headingMean, rep.euler.headingRange)
      && SummarisesRate(TableColumn(table, PColumn), rep.rates.pMax, rep.rates.pMean)
      && SummarisesRate(TableColumn(table, QColumn), rep.rates.qMax, rep.rates.qMean)
      && SummarisesRate(TableColumn(table, RColumn), rep.rates.rMax, rep.rates.rMean)
  {
    ProjectionsPickColumns(table);
  }

  /** A constant column is summarised by that constant and a zero range. */
  lemma ConstantAngle(col: seq<real>, mean: real, range: real, c: real)
    requires SummarisesAngle(col, mean, range)
    requires forall i :: 0 <= i < |col| ==> col[i] == c
    ensures mean == c && range == 0.0
  {
    ConstantColumn(col, c);
  }

  /** A table column whose every entry is `v` reads as `v` throughout. */
  lemma ConstantTableColumn(table: seq<Sample>, c: nat, v: real)
    requires c < ColumnCount
    requires forall i :: 0 <= i < |table| ==> Values(table[i])[c] == v
    ensures forall i :: 0 <= i < |table| ==> TableColumn(table, c)[i] == v
  {
  }

  /** A scenario flown at constant attitude has zero attitude ranges and
      means equal to that attitude. */
  lemma {:induction false} ConstantAttitude(table: seq<Sample>, scenario: string, pitch: real, roll: real, heading: real)
    requires |table| > 0
    requires forall i :: 0 <= i < |table| ==>
      table[i].pitch == pitch && table[i].roll == roll && table[i].headingTrue == heading
    ensures var e := AnalyzeScenario(table, scenario).value.euler;
      && e.pitchRange == 0.0 && e.rollRange == 0.0 && e.headingRange == 0.0
      && e.pitchMean == pitch && e.rollMean == roll && e.headingMean == heading
  {
    forall i | 0 <= i < |table|
      ensures Values(table[i])[PitchColumn] == pitch
      ensures Values(table[i])[RollColumn] == roll
      ensures Values(table[i])[HeadingTrueColumn] == heading
    {
    }
    ConstantTableColumn(table, PitchColumn, pitch);
    ConstantTableColumn(table, RollColumn, roll);
    ConstantTableColumn(table, HeadingTrueColumn, heading);
    ReportDescribesTable(table, scenario);
    var e := AnalyzeScenario(table, scenario).value.euler;
    ConstantAngle(TableColumn(table, PitchColumn), e.pitchMean, e.pitchRange, pitch);
    ConstantAngle(TableColumn(table, RollColumn), e.rollMean, e.rollRange, roll);
    ConstantAngle(TableColumn(table, HeadingTrueColumn), e.headingMean, e.headingRange, heading);
  }
}

=== FILE: frame.dfy ===
/** How `pd.DataFrame(data, columns=...)` treats the rows read from a log,
    as the library behaves: rows of unequal length are widened to the
    longest one with NaN cells, and only a widest row that does not match
    the nine named columns is an error. `None` stands for a NaN cell. */
module Frame {
  import opened Results
  import opened Text
  import opened Parser

  /** The length of the longest row, zero for no rows. */
  function MaxWidth(rows: seq<seq<real>>): (w: nat)
    ensures forall k :: 0 <= k < |rows| ==> |rows[k]| <= w
    ensures |rows| > 0 ==> exists k :: 0 <= k < |rows| && |rows[k]| == w
    ensures |rows| == 0 ==> w == 0
  {
    if |rows| == 0 then 0
    else
      var rest := MaxWidth(rows[1..]);
      assert forall k :: 0 < k < |rows| ==> rows[k] == rows[1..][k - 1];
      if |rows[0]| >= rest then |rows[0]| else rest
  }

  /** A row widened to `width` cells: its values, then NaN. */
  function Pad(row: seq<real>, width: nat): (cells: seq<Option<real>>)
    requires |row| <= width
    ensures |cells| == width
    ensures forall c :: 0 <= c < width ==> cells[c] == if c < |row| then Some(row[c]) else None
  {
    seq(width, c requires 0 <= c < width => if c < |row| then Some(row[c]) else None)
  }

  /** The frame pandas builds from the rows under the nine column names. */
  function BuildFrame(rows: seq<seq<real>>): (r: Result<seq<seq<Option<real>>>, Error>)
    ensures r.Err? <==>
      (exists k :: 0 <= k < |rows| && |rows[k]| > ColumnCount)
      || (|rows| > 0 && forall k :: 0 <= k < |rows| ==> |rows[k]| < ColumnCount)
    ensures r.Ok? ==> |r.value| == |rows|
    ensures r.Ok? ==> forall k :: 0 <= k < |rows| ==> |r.value[k]| == ColumnCount
    ensures r.Ok? ==> forall k, c :: 0 <= k < |rows| && 0 <= c < ColumnCount ==>
      r.value[k][c] == if c < |rows[k]| then Some(rows[k][c]) else None
  {
    var width := MaxWidth(rows);
    if |rows| > 0 && width != ColumnCount then Err(ColumnCountMismatch(width))
    else Ok(seq(|rows|, k requires 0 <= k < |rows| => Pad(rows[k], ColumnCount)))
  }

  /** Cell `c` of a row widened with NaN. */
  function PaddedCell(row: seq<real>, c: nat): Option<real> {
    if c < |row| then Some(row[c]) else None
  }

  /** pandas accepts the data lines exactly when every one converts, none
      gives more than nine values, and, unless there are none, some line
      gives exactly nine. */
  ghost predicate ReadsAsFrame(dataLines: seq<string>, parse: string -> Option<real>) {
    && (forall k :: 0 <= k < |dataLines| ==>
         ParseLine(dataLines[k], parse).Ok? && |ParseLine(dataLines[k], parse).value| <= ColumnCount)
    && (|dataLines| == 0 ||
        (exists k :: 0 <= k < |dataLines| &&
          ParseLine(dataLines[k], parse).Ok? && |ParseLine(dataLines[k], parse).value| == ColumnCount))
  }

  /** `read_xplane_data` with the library's frame construction in place of
      the strict table: the rows are read as before and handed to pandas. */
  function ReadFrame(file: Option<seq<string>>, parse: string -> Option<real>): (r: Result<seq<seq<Option<real>>>, Error>)
    ensures file.None? ==> r == Err(MissingFile)
    ensures file.Some? ==> (r.Ok? <==> ReadsAsFrame(DataLines(file.value), parse))
    ensures r.Ok? ==> |r.value| == |DataLines(file.value)|
    ensures r.Ok? ==> forall k :: 0 <= k < |DataLines(file.value)| ==>
      && ParseLine(DataLines(file.value)[k], parse).Ok?
      && |r.value[k]| == ColumnCount
      && forall c :: 0 <= c < ColumnCount ==>
        r.value[k][c] == PaddedCell(ParseLine(DataLines(file.value)[k], parse).value, c)
  {
    match file
    case None => Err(MissingFile)
    case Some(lines) =>
      var rows :- ParseRows(DataLines(lines), parse);
      BuildFrame(rows)
  }

  /** The frame has no NaN cell exactly when the strict table exists, and
      then the two hold the same values. */
  lemma {:induction false} FrameGapFreeIffTable(rows: seq<seq<real>>)
    ensures (BuildFrame(rows).Ok? && forall k, c :: 0 <= k < |rows| && 0 <= c < ColumnCount ==>
      BuildFrame(rows).value[k][c].Some?) <==> BuildTable(rows).Ok?
    ensures BuildTable(rows).Ok? ==> forall k, c :: 0 <= k < |rows| && 0 <= c < ColumnCount ==>
      BuildFrame(rows).value[k][c] == Some(Values(BuildTable(rows).value[k])[c])
  {
    var f := BuildFrame(rows);
    if f.Ok? && forall k, c :: 0 <= k < |rows| && 0 <= c < ColumnCount ==> f.value[k][c].Some? {
      forall k | 0 <= k < |rows|
        ensures |rows[k]| == ColumnCount
      {
        assert f.value[k][ColumnCount - 1].Some?;
      }
    }
    if BuildTable(rows).Ok? && |rows| > 0 {
      assert |rows[0]| == ColumnCount;
    }
  }

  /** Every field of a printed row is one the number parser accepts. */
  ghost predicate Readable(texts: seq<string>, parse: string -> Option<real>) {
    forall c :: 0 <= c < |texts| ==> PrintedField(texts[c]) && parse(texts[c]).Some?
  }

  /** A line of two or more readable printed fields converts to one value
      per field. Kept apart so that the field list the line splits into
      stays out of its callers' proofs. */
  lemma PrintedLineParses(texts: seq<string>, parse: string -> Option<real>)
    requires |texts| >= 2 && Readable(texts, parse)
    ensures ParseLine(Join(texts, '|'), parse).Ok?
    ensures |ParseLine(Join(texts, '|'), parse).value| == |texts|
  {
    FormattedLine(texts);
  }

  /** The two printed lines of a log are both data lines, so the log is
      its own list of data lines. */
  lemma TwoPrintedLinesSelected(full: seq<string>, short: seq<string>)
    requires |full| >= 2 && |short| >= 2
    requires forall c :: 0 <= c < |full| ==> PrintedField(full[c])
    requires forall c :: 0 <= c < |short| ==> PrintedField(short[c])
    ensures DataLines(FormatLog([full, short])) == FormatLog([full, short])
  {
    var log := FormatLog([full, short]);
    assert log == [Join(full, '|'), Join(short, '|')];
    assert IsDataLine(log[0]) && Strip(log[0]) == log[0] by {
      FormattedLine(full);
    }
    assert IsDataLine(log[1]) && Strip(log[1]) == log[1] by {
      FormattedLine(short);
    }
    FilterStripKeepsAll(log, IsDataLine);
  }

  /** A log of a full printed row followed by a row cut short reads to one
      row of numbers per line, each as wide as its line. */
  lemma {:induction false} TruncatedLogRows(full: seq<string>, short: seq<string>, parse: string -> Option<real>)
    requires |full| == ColumnCount && 2 <= |short| < ColumnCount
    requires Readable(full, parse) && Readable(short, parse)
    ensures var log := FormatLog([full, short]);
      && DataLines(log) == log
      && ParseRows(log, parse).Ok?
      && |ParseRows(log, parse).value| == 2
      && |ParseRows(log, parse).value[0]| == ColumnCount
      && |ParseRows(log, parse).value[1]| == |short|
  {
    TwoPrintedLinesSelected(full, short);
    var first, second := Join(full, '|'), Join(short, '|');
    assert FormatLog([full, short]) == [first, second];
    PrintedLineParses(full, parse);
    PrintedLineParses(short, parse);
    TwoLinesRead(full, short, parse);
  }

  /** Two printed lines of readable fields read to their two rows, in
      order. */
  lemma TwoLinesRead(full: seq<string>, short: seq<string>, parse: string -> Option<real>)
    requires |full| >= 2 && |short| >= 2
    requires Readable(full, parse) && Readable(short, parse)
    ensures var first, second := Join(full, '|'), Join(short, '|');
      && ParseLine(first, parse).Ok? && ParseLine(second, parse).Ok?
      && ParseRows([first, second], parse) == Ok([ParseLine(first, parse).value, ParseLine(second, parse).value])
  {
    var first, second := Join(full, '|'), Join(short, '|');
    PrintedLineParses(full, parse);
    PrintedLineParses(short, parse);
    var lines := [first, second];
    assert forall k :: 0 <= k < |lines| ==> ParseLine(lines[k], parse).Ok? by {
      forall k | 0 <= k < |lines|
        ensures ParseLine(lines[k], parse).Ok?
      {
        if k == 0 {
          assert lines[k] == first;
        } else {
          assert lines[k] == second;
        }
      }
    }
    var rows := ParseRows(lines, parse);
    var a, b := ParseLine(first, parse).value, ParseLine(second, parse).value;
    assert |rows.value| == 2;
    assert rows.value[0] == a by {
      assert ParseLine(lines[0], parse) == Ok(rows.value[0]);
    }
    assert rows.value[1] == b by {
      assert ParseLine(lines[1], parse) == Ok(rows.value[1]);
    }
    assert rows.value == [a, b];
  }

  /** A log whose second line was cut short at a field boundary, as a
      logger stopped mid-write leaves it (say the line `0|0` after a full
      line of nine zeros): pandas
      accepts it and fills the missing cells of the second row with NaN,
      which then turns every statistic of those columns into NaN; the strict
      table rejects the row. */
  lemma {:induction false} TruncatedLineBecomesNaN(full: seq<string>, short: seq<string>, parse: string -> Option<real>)
    requires |full| == ColumnCount && 2 <= |short| < ColumnCount
    requires Readable(full, parse) && Readable(short, parse)
    ensures var log := FormatLog([full, short]);
      && ReadFrame(Some(log), parse).Ok?
      && |ReadFrame(Some(log), parse).value| == 2
      && |ReadFrame(Some(log), parse).value[1]| == ColumnCount
      && ReadFrame(Some(log), parse).value[1][|short|] == None
      && ReadXPlaneData(Some(log), parse) == Err(WrongFieldCount(1, |short|))
  {
    TruncatedLogRows(full, short, parse);
    var log := FormatLog([full, short]);
    var rows := ParseRows(log, parse).value;
    assert ReadFrame(Some(log), parse) == BuildFrame(rows);
    ShortRowPadded(rows);
    ShortRowRejected(rows);
  }

  /** A full row followed by a shorter one: pandas pads the second. */
  lemma ShortRowPadded(rows: seq<seq<real>>)
    requires |rows| == 2 && |rows[0]| == ColumnCount && |rows[1]| < ColumnCount
    ensures BuildFrame(rows).Ok? && |BuildFrame(rows).value| == 2
    ensures |BuildFrame(rows).value[1]| == ColumnCount && BuildFrame(rows).value[1][|rows[1]|] == None
  {
    assert !(exists j :: 0 <= j < |rows| && |rows[j]| > ColumnCount);
  }

  /** A full row followed by a shorter one: the strict table names the
      second row and its width. */
  lemma ShortRowRejected(rows: seq<seq<real>>)
    requires |rows| == 2 && |rows[0]| == ColumnCount && |rows[1]| < ColumnCount
    ensures BuildTable(rows) == Err(WrongFieldCount(1, |rows[1]|))
  {
    var table := BuildTable(rows);
    assert table.Err?;
    var k :| FirstMisshapen(rows, k) && table.error == WrongFieldCount(k, |rows[k]|);
    assert k == 1;
  }
}

=== FILE: parser.dfy ===
/** The X-Plane telemetry reader (`read_xplane_data`): a text log is filtered
    to its data lines, each data line is cut into `|`-separated numeric
    fields, and the rows are bound to the nine telemetry columns. */
module Parser {
  import opened Results
  import opened Text

  /** The column schema every row is bound to. */
  const ColumnCount: nat := 9

  /** One telemetry sample: attitude and heading in degrees, body rates
      P (roll), Q (pitch), R (yaw) in degrees per second. */
  datatype Sample = Sample(
    pitch: real, roll: real, headingTrue: real, headingMag: real,
    magVar: real, magComp: real, P: real, Q: real, R: real)

  /** The sample's fields in column order. */
  function Values(s: Sample): (v: seq<real>)
    ensures |v| == ColumnCount
  {
    [s.pitch, s.roll, s.headingTrue, s.headingMag, s.magVar, s.magComp, s.P, s.Q, s.R]
  }

  /** The sample a nine-value row is bound to. */
  function SampleOf(v: seq<real>): Sample
    requires |v| == ColumnCount
  {
    Sample(v[0], v[1], v[2], v[3], v[4], v[5], v[6], v[7], v[8])
  }

  /** Reading a sample's fields and binding them back to the columns
      gives the same sample. */
  lemma SampleOfValues(s: Sample)
    ensures |Values(s)| == ColumnCount && SampleOf(Values(s)) == s
  {
  }

  /** Binding nine values to the columns and reading the fields back gives
      the same values. */
  lemma ValuesSampleOf(v: seq<real>)
    requires |v| == ColumnCount
    ensures Values(SampleOf(v)) == v
  {
  }

  /** A line is a data line when it is not blank, holds a field separator,
      and is not the header (the only line naming `pitch`). */
  predicate IsDataLine(line: string) {
    Strip(line) != [] && '|' in line && !Contains(line, "pitch")
  }

  /** A piece of a split line survives when something is left after trimming. */
  predicate NonBlank(x: string) {
    Strip(x) != []
  }

  /** The stripped data lines of a log, in file order. */
  function DataLines(lines: seq<string>): (rows: seq<string>)
    ensures |rows| <= |lines|
    ensures forall k :: 0 <= k < |rows| ==>
      && rows[k] != [] && EdgesNonSpace(rows[k])
      && '|' in rows[k] && !Contains(rows[k], "pitch")
  {
    var rows := FilterStrip(lines, IsDataLine);
    FilterStripAt(lines, IsDataLine);
    KeptIndicesSound(lines, IsDataLine);
    forall k | 0 <= k < |rows|
      ensures '|' in rows[k] && !Contains(rows[k], "pitch")
    {
      var line := lines[KeptIndices(lines, IsDataLine)[k]];
      StripKeeps(line, '|');
      if Contains(rows[k], "pitch") {
        ContainsStripped(line, "pitch");
      }
    }
    rows
  }

  /** The trimmed, non-empty `|`-separated fields of a data line, in order. */
  function Fields(line: string): (fields: seq<string>)
    ensures |fields| <= multiset(line)['|'] + 1
    ensures forall k :: 0 <= k < |fields| ==>
      fields[k] != [] && EdgesNonSpace(fields[k]) && '|' !in fields[k]
  {
    var pieces := Split(line, '|');
    var fields := FilterStrip(pieces, NonBlank);
    FilterStripAt(pieces, NonBlank);
    KeptIndicesSound(pieces, NonBlank);
    forall k | 0 <= k < |fields|
      ensures '|' !in fields[k]
    {
      StripAvoids(pieces[KeptIndices(pieces, NonBlank)[k]], '|');
    }
    fields
  }

  /** `float()` on one trimmed field, with the partial number parser
      `parse` standing for it: a rejected field is a `ValueError`. */
  function ToNumber(field: string, parse: string -> Option<real>): (r: Result<real, Error>)
    ensures r.Ok? <==> parse(field).Some?
    ensures r.Ok? ==> parse(field) == Some(r.value)
    ensures r.Err? ==> r.error == NotANumber(field)
  {
    match parse(field)
    case None => Err(NotANumber(field))
    case Some(v) => Ok(v)
  }

  /** `k` is the first field that the number parser rejects. */
  ghost predicate FirstRejected(fields: seq<string>, parse: string -> Option<real>, k: int) {
    && 0 <= k < |fields|
    && parse(fields[k]).None?
    && forall j :: 0 <= j < k ==> parse(fields[j]).Some?
  }

  /** The numbers on one data line (`values` in the source): one number per
      field, in order; the first field that does not convert aborts. */
  function ParseLine(line: string, parse: string -> Option<real>): (r: Result<seq<real>, Error>)
    ensures r.Ok? <==> forall k :: 0 <= k < |Fields(line)| ==> parse(Fields(line)[k]).Some?
    ensures r.Ok? ==> |r.value| == |Fields(line)|
    ensures r.Ok? ==> forall k :: 0 <= k < |r.value| ==> parse(Fields(line)[k]) == Some(r.value[k])
    ensures r.Err? ==> exists k :: FirstRejected(Fields(line), parse, k) && r.error == NotANumber(Fields(line)[k])
  {
    var fields := Fields(line);
    var r := MapAll(fields, f => ToNumber(f, parse));
    assert r.Err? ==> exists k :: FirstRejected(fields, parse, k) && r.error == NotANumber(fields[k]) by {
      if r.Err? {
        var k :| FirstFailure(fields, f => ToNumber(f, parse), k) && ToNumber(fields[k], parse) == Err(r.error);
        assert FirstRejected(fields, parse, k);
      }
    }
    r
  }

  /** Converts every data line into a row of numbers, in order; the first
      line with a rejected field aborts the whole read. */
  function ParseRows(lines: seq<string>, parse: string -> Option<real>): (r: Result<seq<seq<real>>, Error>)
    ensures r.Ok? <==> forall k :: 0 <= k < |lines| ==> ParseLine(lines[k], parse).Ok?
    ensures r.Ok? ==> |r.value| == |lines|
    ensures r.Ok? ==> forall k :: 0 <= k < |lines| ==> ParseLine(lines[k], parse) == Ok(r.value[k])
    ensures r.Err? ==> exists k :: FirstFailure(lines, l => ParseLine(l, parse), k) && r == Err(ParseLine(lines[k], parse).error)
  {
    MapAll(lines, l => ParseLine(l, parse))
  }

  /** `k` is the first row that does not have one value per column. */
  ghost predicate FirstMisshapen(rows: seq<seq<real>>, k: int) {
    && 0 <= k < |rows|
    && |rows[k]| != ColumnCount
    && forall j :: 0 <= j < k ==> |rows[j]| == ColumnCount
  }

  /** Binds every row to the nine-column schema. A row of any other width
      makes table construction fail, and no partial table is produced. */
  function BuildTable(rows: seq<seq<real>>): (r: Result<seq<Sample>, Error>)
    ensures r.Ok? <==> forall k :: 0 <= k < |rows| ==> |rows[k]| == ColumnCount
    ensures r.Ok? ==> |r.value| == |rows|
    ensures r.Ok? ==> forall k :: 0 <= k < |rows| ==> Values(r.value[k]) == rows[k]
    ensures r.Err? ==> exists k :: FirstMisshapen(rows, k) && r.error == WrongFieldCount(k, |rows[k]|)
  {
    if |rows| == 0 then Ok([])
    else if |rows[0]| != ColumnCount then
      assert FirstMisshapen(rows, 0);
      Err(WrongFieldCount(0, |rows[0]|))
    else
      var rest := BuildTable(rows[1..]);
      if rest.Err? then
        var e := WrongFieldCount(rest.error.row + 1, rest.error.found);
        assert exists k :: FirstMisshapen(rows, k) && e == WrongFieldCount(k, |rows[k]|) by {
          var k :| FirstMisshapen(rows[1..], k) && rest.error == WrongFieldCount(k, |rows[1..][k]|);
          assert FirstMisshapen(rows, k + 1);
        }
        Err(e)
      else
        assert forall k :: 0 < k < |rows| ==> rows[k] == rows[1..][k - 1];
        Ok([SampleOf(rows[0])] + rest.value)
  }

  /** The table for a log's data lines: it exists exactly when every data
      line converts and has one value per column. Conversion errors are
      raised while the rows are read, before the table is built, so they
      take precedence over a misshapen row. */
  function TableOf(dataLines: seq<string>, parse: string -> Option<real>): (r: Result<seq<Sample>, Error>)
    ensures r.Ok? <==> forall k :: 0 <= k < |dataLines| ==>
      ParseLine(dataLines[k], parse).Ok? && |ParseLine(dataLines[k], parse).value| == ColumnCount
    ensures r.Ok? ==> |r.value| == |dataLines|
    ensures r.Ok? ==> forall k :: 0 <= k < |dataLines| ==>
      ParseLine(dataLines[k], parse) == Ok(Values(r.value[k]))
    ensures (exists k :: 0 <= k < |dataLines| && ParseLine(dataLines[k], parse).Err?) ==>
      r.Err? && r.error.NotANumber?
  {
    var rows :- ParseRows(dataLines, parse);
    BuildTable(rows)
  }

  /** `read_xplane_data`: the log's lines, or `None` when the file does not
      exist, read into a table of samples. */
  function ReadXPlaneData(file: Option<seq<string>>, parse: string -> Option<real>): (r: Result<seq<Sample>, Error>)
    ensures file.None? ==> r == Err(MissingFile)
    ensures file.Some? ==> (r.Ok? <==> forall k :: 0 <= k < |DataLines(file.value)| ==>
      ParseLine(DataLines(file.value)[k], parse).Ok?
      && |ParseLine(DataLines(file.value)[k], parse).value| == ColumnCount)
    ensures r.Ok? ==> |r.value| == |DataLines(file.value)| <= |file.value|
    ensures r.Ok? ==> forall k :: 0 <= k < |DataLines(file.value)| ==>
      ParseLine(DataLines(file.value)[k], parse) == Ok(Values(r.value[k]))
    ensures file.Some? && (exists k :: 0 <= k < |DataLines(file.value)| && ParseLine(DataLines(file.value)[k], parse).Err?) ==>
      r.Err? && r.error.NotANumber?
  {
    match file
    case None => Err(MissingFile)
    case Some(lines) => TableOf(DataLines(lines), parse)
  }

  /** The data lines of two concatenated logs are those of the first
      followed by those of the second: selection never reorders. */
  lemma {:induction false} DataLinesAppend(a: seq<string>, b: seq<string>)
    ensures DataLines(a + b) == DataLines(a) + DataLines(b)
  {
    FilterStripAppend(a, b, IsDataLine);
  }

  /** Each data line of the log yields exactly one row, in file order, and
      every other line yields none. */
  lemma {:induction false} DataLinesInOrder(lines: seq<string>)
    ensures SelectsInOrder(lines, IsDataLine, DataLines(lines), KeptIndices(lines, IsDataLine))
  {
    FilterStripInOrder(lines, IsDataLine);
  }

  /** A line that is not a data line contributes nothing to the table,
      wherever it stands in the log. */
  lemma {:induction false} NonDataLineSkipped(a: seq<string>, line: string, b: seq<string>, parse: string -> Option<real>)
    requires !IsDataLine(line)
    ensures ReadXPlaneData(Some(a + [line] + b), parse) == ReadXPlaneData(Some(a + b), parse)
  {
    assert DataLines([line]) == [] by {
      assert [line][..0] == [];
    }
    DataLinesAppend(a + [line], b);
    DataLinesAppend(a, [line]);
    DataLinesAppend(a, b);
    assert DataLines(a + [line]) == DataLines(a) + [] == DataLines(a);
    var kept := DataLines(a + b);
    assert DataLines(a + [line] + b) == kept;
    assert ReadXPlaneData(Some(a + [line] + b), parse) == TableOf(kept, parse);
    assert ReadXPlaneData(Some(a + b), parse) == TableOf(kept, parse);
  }

  /** The header, or any other line naming `pitch`, never yields a row,
      wherever it stands in the log. */
  lemma {:induction false} HeaderSkipped(a: seq<string>, header: string, b: seq<string>, parse: string -> Option<real>)
    requires Contains(header, "pitch")
    ensures ReadXPlaneData(Some(a + [header] + b), parse) == ReadXPlaneData(Some(a + b), parse)
  {
    NonDataLineSkipped(a, header, b, parse);
  }

  /** A field as a number printer writes it: not empty, no separator, no
      surrounding whitespace, and no letter `p` (so it cannot spell the
      header's `pitch`). */
  predicate PrintedField(f: string) {
    f != [] && EdgesNonSpace(f) && '|' !in f && 'p' !in f
  }

  /** The log text for rows of printed fields, one `|`-joined line per row. */
  function FormatLog(texts: seq<seq<string>>): seq<string> {
    seq(|texts|, r requires 0 <= r < |texts| => Join(texts[r], '|'))
  }

  /** A line joined from two or more printed fields is a data line that
      stripping leaves alone, and it splits back into exactly those fields. */
  lemma {:induction false} FormattedLine(texts: seq<string>)
    requires |texts| >= 2
    requires forall c :: 0 <= c < |texts| ==> PrintedField(texts[c])
    ensures IsDataLine(Join(texts, '|'))
    ensures Strip(Join(texts, '|')) == Join(texts, '|')
    ensures Fields(Join(texts, '|')) == texts
  {
    var line := Join(texts, '|');
    JoinEdges(texts, '|');
    StripIdentity(line);
    assert line == texts[0] + ['|'] + Join(texts[1..], '|');
    assert line[|texts[0]|] == '|';
    JoinAvoids(texts, '|', 'p');
    MissingFirstChar(line, "pitch");
    SplitJoin(texts, '|');
    forall c | 0 <= c < |texts|
      ensures NonBlank(texts[c]) && Strip(texts[c]) == texts[c]
    {
      StripIdentity(texts[c]);
    }
    FilterStripKeepsAll(texts, NonBlank);
  }

  /** A line of nine printed fields that the number parser reads back
      exactly converts to the sample's values. */
  lemma {:induction false} FormattedLineParses(texts: seq<string>, sample: Sample, parse: string -> Option<real>)
    requires |texts| == ColumnCount
    requires forall c :: 0 <= c < |texts| ==>
      PrintedField(texts[c]) && parse(texts[c]) == Some(Values(sample)[c])
    ensures IsDataLine(Join(texts, '|')) && Strip(Join(texts, '|')) == Join(texts, '|')
    ensures ParseLine(Join(texts, '|'), parse) == Ok(Values(sample))
  {
    FormattedLine(texts);
    var row := ParseLine(Join(texts, '|'), parse);
    assert row.Ok?;
    assert row.value == Values(sample);
  }

  /** Data lines that each convert to one sample's values build exactly
      the table of those samples. */
  lemma {:induction false} TableOfExact(dataLines: seq<string>, table: seq<Sample>, parse: string -> Option<real>)
    requires |dataLines| == |table|
    requires forall k :: 0 <= k < |dataLines| ==> ParseLine(dataLines[k], parse) == Ok(Values(table[k]))
    ensures TableOf(dataLines, parse) == Ok(table)
  {
    var t := TableOf(dataLines, parse);
    assert t.Ok?;
    forall k | 0 <= k < |table|
      ensures t.value[k] == table[k]
    {
      assert Values(t.value[k]) == Values(table[k]);
      SampleOfValues(table[k]);
      SampleOfValues(t.value[k]);
    }
    assert t.value == table;
  }

  /** Parsing is lossless: printing every sample as a line of nine fields
      that the number parser reads back exactly, and reading the log, gives
      the table back. */
  lemma {:induction false} ReadRoundTrip(texts: seq<seq<string>>, table: seq<Sample>, parse: string -> Option<real>)
    requires |texts| == |table|
    requires forall r :: 0 <= r < |texts| ==> |texts[r]| == ColumnCount
    requires forall r, c :: 0 <= r < |texts| && 0 <= c < |texts[r]| ==>
      PrintedField(texts[r][c]) && parse(texts[r][c]) == Some(Values(table[r])[c])
    ensures ReadXPlaneData(Some(FormatLog(texts)), parse) == Ok(table)
  {
    var lines := FormatLog(texts);
    forall r | 0 <= r < |lines|
      ensures IsDataLine(lines[r]) && Strip(lines[r]) == lines[r]
      ensures ParseLine(lines[r], parse) == Ok(Values(table[r]))
    {
      FormattedLineParses(texts[r], table[r], parse);
    }
    FilterStripKeepsAll(lines, IsDataLine);
    TableOfExact(lines, table, parse);
  }

  /** The header-plus-data log: a header line followed by printed rows reads
      back to exactly those rows (the header is not counted). */
  lemma {:induction false} HeaderedLogRoundTrip(header: string, texts: seq<seq<string>>, table: seq<Sample>, parse: string -> Option<real>)
    requires Contains(header, "pitch")
    requires |texts| == |table|
    requires forall r :: 0 <= r < |texts| ==> |texts[r]| == ColumnCount
    requires forall r, c :: 0 <= r < |texts| && 0 <= c < |texts[r]| ==>
      PrintedField(texts[r][c]) && parse(texts[r][c]) == Some(Values(table[r])[c])
    ensures ReadXPlaneData(Some([header] + FormatLog(texts)), parse) == Ok(table)
  {
    var log := FormatLog(texts);
    var none: seq<string> := [];
    assert none + [header] + log == [header] + log && none + log == log;
    HeaderSkipped(none, header, log, parse);
    ReadRoundTrip(texts, table, parse);
  }
}

=== FILE: results.dfy ===
/** Failure-carrying datatypes for the flight-log analysis model, and the
    failures the analysis script can raise. */
module Results {

  /** An optional value; `None` also stands for a numpy NaN result. */
  datatype Option<+T> = None | Some(value: T)

  /** A value or the failure that stopped its computation. Usable with `:-`. */
  datatype Result<+T, +E> = Ok(value: T) | Err(error: E) {

    predicate IsFailure() {
      Err?
    }

    function PropagateFailure<U>(): Result<U, E>
      requires Err?
    {
      Err(error)
    }

    function Extract(): T
      requires Ok?
    {
      value
    }
  }

  /** Every way one scenario's analysis can fail. Each one is caught by the
      per-scenario handler, which skips the scenario. */
  datatype Error =
    | MissingFile                              // FileNotFoundError from open()
    | NotANumber(text: string)                 // float() rejected a trimmed field
    | WrongFieldCount(row: nat, found: nat)    // a data row does not have 9 fields
    | ColumnCountMismatch(found: nat)          // pandas: widest row is not 9 wide
    | EmptyTable                               // indexing a column of an empty table
    | EmptyReduction                           // max/ptp over a zero-size column

  /** `k` is the first element on which `f` fails. */
  ghost predicate FirstFailure<X, Y, E>(xs: seq<X>, f: X -> Result<Y, E>, k: int) {
    && 0 <= k < |xs|
    && f(xs[k]).Err?
    && forall j :: 0 <= j < k ==> f(xs[j]).Ok?
  }

  /** Applies `f` to every element in order, as a Python loop or list
      comprehension does; the first exception aborts the whole loop. */
  function MapAll<X, Y, E>(xs: seq<X>, f: X -> Result<Y, E>): (r: Result<seq<Y>, E>)
    ensures r.Ok? <==> forall k :: 0 <= k < |xs| ==> f(xs[k]).Ok?
    ensures r.Ok? ==> |r.value| == |xs|
    ensures r.Ok? ==> forall k :: 0 <= k < |xs| ==> f(xs[k]) == Ok(r.value[k])
    ensures r.Err? ==> exists k :: FirstFailure(xs, f, k) && f(xs[k]) == Err(r.error)
  {
    if |xs| == 0 then Ok([])
    else
      var first := f(xs[0]);
      if first.Err? then
        assert FirstFailure(xs, f, 0);
        Err(first.error)
      else
        var rest := MapAll(xs[1..], f);
        if rest.Err? then
          assert exists k :: FirstFailure(xs, f, k) && f(xs[k]) == Err(rest.error) by {
            var k :| FirstFailure(xs[1..], f, k) && f(xs[1..][k]) == Err(rest.error);
            assert FirstFailure(xs, f, k + 1);
          }
          Err(rest.error)
        else
          assert forall k :: 0 < k < |xs| ==> xs[k] == xs[1..][k - 1];
          Ok([first.value] + rest.value)
  }
}

=== FILE: statistics.dfy ===
/** The numpy reductions the analysis applies to one column of samples:
    `np.mean`, `np.ptp` (peak to peak, max - min) and `np.max(np.abs(...))`.
    Samples are exact reals. */
module Statistics {
  import opened Results

  function Abs(x: real): real {
    if x < 0.0 then -x else x
  }

  function Sum(s: seq<real>): real {
    if |s| == 0 then 0.0 else s[0] + Sum(s[1..])
  }

  /** The smallest sample. */
  function MinOf(s: seq<real>): (m: real)
    requires |s| > 0
    ensures exists i :: 0 <= i < |s| && s[i] == m
    ensures forall i :: 0 <= i < |s| ==> m <= s[i]
  {
    if |s| == 1 then s[0]
    else
      var rest := MinOf(s[1..]);
      assert forall i :: 1 <= i < |s| ==> s[i] == s[1..][i - 1];
      if s[0] <= rest then s[0] else rest
  }

  /** The largest sample. */
  function MaxOf(s: seq<real>): (m: real)
    requires |s| > 0
    ensures exists i :: 0 <= i < |s| && s[i] == m
    ensures forall i :: 0 <= i < |s| ==> s[i] <= m
  {
    if |s| == 1 then s[0]
    else
      var rest := MaxOf(s[1..]);
      assert forall i :: 1 <= i < |s| ==> s[i] == s[1..][i - 1];
      if rest <= s[0] then s[0] else rest
  }

  /** `np.mean`: the arithmetic mean. Over an empty column numpy yields NaN,
      written here as `None`. */
  function Mean(s: seq<real>): (m: Option<real>)
    ensures m.None? <==> |s| == 0
    ensures m.Some? ==> m.value * (|s| as real) == Sum(s)
  {
    if |s| == 0 then None else Some(Sum(s) / (|s| as real))
  }

  /** `np.ptp`: the largest difference between two samples. numpy raises on
      an empty column. */
  function Ptp(s: seq<real>): (r: Result<real, Error>)
    ensures r.Err? <==> |s| == 0
    ensures r.Err? ==> r.error == EmptyReduction
    ensures r.Ok? ==> forall i, j :: 0 <= i < |s| && 0 <= j < |s| ==> s[i] - s[j] <= r.value
    ensures r.Ok? ==> exists i, j :: 0 <= i < |s| && 0 <= j < |s| && s[i] - s[j] == r.value
  {
    if |s| == 0 then Err(EmptyReduction) else Ok(MaxOf(s) - MinOf(s))
  }

  /** `np.abs` applied to every sample. */
  function AbsAll(s: seq<real>): (a: seq<real>)
    ensures |a| == |s|
    ensures forall i :: 0 <= i < |s| ==> a[i] == Abs(s[i])
  {
    seq(|s|, i requires 0 <= i < |s| => Abs(s[i]))
  }

  /** `np.max(np.abs(s))`: the largest magnitude of a sample. numpy raises on
      an empty column. */
  function MaxAbs(s: seq<real>): (r: Result<real, Error>)
    ensures r.Err? <==> |s| == 0
    ensures r.Err? ==> r.error == EmptyReduction
    ensures r.Ok? ==> r.value >= 0.0
    ensures r.Ok? ==> forall i :: 0 <= i < |s| ==> Abs(s[i]) <= r.value
    ensures r.Ok? ==> exists i :: 0 <= i < |s| && Abs(s[i]) == r.value
  {
    if |s| == 0 then Err(EmptyReduction)
    else
      var a := AbsAll(s);
      assert Abs(s[0]) == a[0];
      Ok(MaxOf(a))
  }

  /** The largest magnitude is the larger of the maximum and the negated
      minimum. */
  lemma MaxAbsFromExtremes(s: seq<real>)
    requires |s| > 0
    ensures MaxAbs(s).value == if MaxOf(s) >= -MinOf(s) then MaxOf(s) else -MinOf(s)
  {
    var m := MaxAbs(s).value;
    var top, bottom := MaxOf(s), MinOf(s);
    var i :| 0 <= i < |s| && Abs(s[i]) == m;
    var hi :| 0 <= hi < |s| && s[hi] == top;
    var lo :| 0 <= lo < |s| && s[lo] == bottom;
    assert bottom <= s[i] <= top;
    assert top <= Abs(s[hi]) <= m;
    assert -bottom <= Abs(s[lo]) <= m;
  }

  /** A range is never negative, and it is zero exactly when every sample
      has the same value. */
  lemma PtpZeroIffConstant(s: seq<real>)
    requires |s| > 0
    ensures Ptp(s).value >= 0.0
    ensures Ptp(s).value == 0.0 <==> forall i, j :: 0 <= i < |s| && 0 <= j < |s| ==> s[i] == s[j]
  {
    var r := Ptp(s).value;
    assert s[0] - s[0] <= r;
    if r == 0.0 {
      forall i, j | 0 <= i < |s| && 0 <= j < |s|
        ensures s[i] == s[j]
      {
        assert s[i] - s[j] <= r && s[j] - s[i] <= r;
      }
    }
  }

  /** The sum of samples that all lie in `[lo, hi]` lies in `[n * lo, n * hi]`. */
  lemma {:induction false} SumBounds(s: seq<real>, lo: real, hi: real)
    requires forall i :: 0 <= i < |s| ==> lo <= s[i] <= hi
    ensures (|s| as real) * lo <= Sum(s) <= (|s| as real) * hi
  {
    if |s| > 0 {
      assert forall i :: 0 <= i < |s| - 1 ==> s[1..][i] == s[i + 1];
      SumBounds(s[1..], lo, hi);
      assert (|s| as real) * lo == ((|s| - 1) as real) * lo + lo;
      assert (|s| as real) * hi == ((|s| - 1) as real) * hi + hi;
    }
  }

  /** Dividing by a positive count preserves bounds. */
  lemma DivBounds(sum: real, n: real, lo: real, hi: real)
    requires n > 0.0 && n * lo <= sum <= n * hi
    ensures lo <= sum / n <= hi
  {
    assert sum / n * n == sum;
  }

  /** The mean of samples that all lie in `[lo, hi]` lies in `[lo, hi]`. */
  lemma MeanBounds(s: seq<real>, lo: real, hi: real)
    requires |s| > 0
    requires forall i :: 0 <= i < |s| ==> lo <= s[i] <= hi
    ensures lo <= Mean(s).value <= hi
  {
    SumBounds(s, lo, hi);
    DivBounds(Sum(s), |s| as real, lo, hi);
  }

  /** The mean of a non-empty column lies between its minimum and maximum. */
  lemma MeanWithinExtremes(s: seq<real>)
    requires |s| > 0
    ensures MinOf(s) <= Mean(s).value <= MaxOf(s)
  {
    MeanBounds(s, MinOf(s), MaxOf(s));
  }

  /** A constant column has that constant as its mean and a zero range. */
  lemma ConstantColumn(s: seq<real>, c: real)
    requires |s| > 0
    requires forall i :: 0 <= i < |s| ==> s[i] == c
    ensures Mean(s) == Some(c)
    ensures Ptp(s) == Ok(0.0)
  {
    MeanWithinExtremes(s);
    assert MinOf(s) == c && MaxOf(s) == c;
  }

  /** The worked example: pitch samples 0, 10, -10, 5 have mean 1.25 and
      range 20. */
  lemma PitchExample()
    ensures Mean([0.0, 10.0, -10.0, 5.0]) == Some(1.25)
    ensures Ptp([0.0, 10.0, -10.0, 5.0]) == Ok(20.0)
  {
    var s := [0.0, 10.0, -10.0, 5.0];
    assert Sum(s) == 5.0 by {
      assert s[1..] == [10.0, -10.0, 5.0];
      assert s[1..][1..] == [-10.0, 5.0];
      assert s[1..][1..][1..] == [5.0];
      assert s[1..][1..][1..][1..] == [];
    }
    assert MaxOf(s) == 10.0;
    assert MinOf(s) == -10.0;
  }
}

=== FILE: text.dfy ===
/** The Python string operations the log reader relies on: `str.strip()`,
    `str.split(sep)`, substring tests, and the strip-and-filter list
    comprehension it applies both to lines and to fields. */
module Text {

  /** Python's `str.isspace()` for one character: the characters that
      `str.strip()` with no argument removes. */
  predicate IsSpace(c: char) {
    || ('\t' <= c <= '\r')               // tab, line feed, vertical tab, form feed, carriage return
    || ('\U{1C}' <= c <= '\U{1F}')       // file, group, record and unit separators
    || c == ' '
    || c == '\U{85}' || c == '\U{A0}' || c == '\U{1680}'
    || ('\U{2000}' <= c <= '\U{200A}')
    || c == '\U{2028}' || c == '\U{2029}' || c == '\U{202F}' || c == '\U{205F}' || c == '\U{3000}'
  }

  predicate AllSpace(s: string) {
    forall k :: 0 <= k < |s| ==> IsSpace(s[k])
  }

  /** A string with no whitespace at either end (it may be empty). */
  predicate EdgesNonSpace(t: string) {
    t == [] || (!IsSpace(t[0]) && !IsSpace(t[|t| - 1]))
  }

  /** The length of the whitespace run that starts `s`. */
  function LeadCount(s: string): (n: nat)
    ensures n <= |s|
    ensures forall k :: 0 <= k < n ==> IsSpace(s[k])
    ensures n < |s| ==> !IsSpace(s[n])
  {
    if |s| == 0 || !IsSpace(s[0]) then 0
    else 1 + LeadCount(s[1..])
  }

  /** The length of the whitespace run that ends `s`. */
  function TrailCount(s: string): (n: nat)
    ensures n <= |s|
    ensures forall k :: |s| - n <= k < |s| ==> IsSpace(s[k])
    ensures n < |s| ==> !IsSpace(s[|s| - n - 1])
  {
    if |s| == 0 || !IsSpace(s[|s| - 1]) then 0
    else 1 + TrailCount(s[..|s| - 1])
  }

  /** Python's `str.strip()`: `s` without its leading and trailing whitespace. */
  function Strip(s: string): (r: string)
    ensures |r| <= |s|
    ensures r == [] <==> AllSpace(s)
    ensures EdgesNonSpace(r)
  {
    var lo := LeadCount(s);
    if lo == |s| then []
    else s[lo..|s| - TrailCount(s)]
  }

  /** Stripping never introduces a character. */
  lemma StripAvoids(s: string, c: char)
    requires c !in s
    ensures c !in Strip(s)
  {
    var t := Strip(s);
    var lo := LeadCount(s);
    forall k | 0 <= k < |t|
      ensures t[k] != c
    {
      assert t[k] == s[lo + k];
    }
  }

  /** `t` is what is left of `s` once whitespace is cut from its two ends:
      an infix of `s` whose margins are whitespace and whose edges are not. */
  ghost predicate IsStripOf(s: string, t: string) {
    && EdgesNonSpace(t)
    && exists i :: && 0 <= i <= |s|
                   && t <= s[i..]
                   && (forall k :: 0 <= k < i ==> IsSpace(s[k]))
                   && (forall k :: i + |t| <= k < |s| ==> IsSpace(s[k]))
  }

  /** `Strip` produces the whitespace-trimmed form of its input. */
  lemma StripIsStripOf(s: string)
    ensures IsStripOf(s, Strip(s))
  {
    var lo := LeadCount(s);
    var t := Strip(s);
    if lo == |s| {
      assert t <= s[0..];
    } else {
      assert t <= s[lo..];
    }
  }

  /** A whitespace run that ends before a non-space character is the
      leading run. */
  lemma LeadCountAt(s: string, i: nat)
    requires i < |s| && !IsSpace(s[i])
    requires forall k :: 0 <= k < i ==> IsSpace(s[k])
    ensures LeadCount(s) == i
  {
    var lo := LeadCount(s);
    assert lo <= i;
  }

  /** A whitespace run that starts after a non-space character is the
      trailing run. */
  lemma TrailCountAt(s: string, j: nat)
    requires 0 < j <= |s| && !IsSpace(s[j - 1])
    requires forall k :: j <= k < |s| ==> IsSpace(s[k])
    ensures TrailCount(s) == |s| - j
  {
    var n := TrailCount(s);
    assert |s| - n >= j;
  }

  /** A string that is whitespace before and after some position is all
      whitespace, so it strips to nothing. */
  lemma StripOfBlank(s: string, i: nat)
    requires i <= |s|
    requires forall k :: 0 <= k < i ==> IsSpace(s[k])
    requires forall k :: i <= k < |s| ==> IsSpace(s[k])
    ensures Strip(s) == []
  {
    forall k | 0 <= k < |s|
      ensures IsSpace(s[k])
    {
      if k < i {
        assert IsSpace(s[k]);
      }
    }
  }

  /** An infix with non-space edges and whitespace margins is what
      stripping leaves. */
  lemma StripOfInfix(s: string, i: nat, j: nat)
    requires i < j <= |s| && !IsSpace(s[i]) && !IsSpace(s[j - 1])
    requires forall k :: 0 <= k < i ==> IsSpace(s[k])
    requires forall k :: j <= k < |s| ==> IsSpace(s[k])
    ensures Strip(s) == s[i..j]
  {
    LeadCountAt(s, i);
    TrailCountAt(s, j);
  }

  /** The whitespace-trimmed form of a string is unique, so it is `Strip`'s. */
  lemma StripOfUnique(s: string, t: string)
    requires IsStripOf(s, t)
    ensures t == Strip(s)
  {
    var i :| && 0 <= i <= |s|
             && t <= s[i..]
             && (forall k :: 0 <= k < i ==> IsSpace(s[k]))
             && (forall k :: i + |t| <= k < |s| ==> IsSpace(s[k]));
    if t == [] {
      StripOfBlank(s, i);
    } else {
      var j := i + |t|;
      assert t == s[i..j];
      assert s[i] == t[0] && s[j - 1] == t[|t| - 1];
      StripOfInfix(s, i, j);
    }
  }

  /** `Strip` computes exactly the whitespace-trimmed form of its input. */
  lemma StripCharacterized(s: string, t: string)
    ensures IsStripOf(s, t) <==> t == Strip(s)
  {
    StripIsStripOf(s);
    if IsStripOf(s, t) {
      StripOfUnique(s, t);
    }
  }

  /** Stripping a string that has no whitespace at its ends changes nothing;
      in particular stripping is idempotent. */
  lemma StripIdentity(t: string)
    requires EdgesNonSpace(t)
    ensures Strip(t) == t
  {
    assert t <= t[0..];
    StripCharacterized(t, t);
  }

  /** Python's `sub in s` for strings. */
  predicate Contains(s: string, sub: string) {
    exists i :: 0 <= i <= |s| && sub <= s[i..]
  }

  /** Whatever a slice contains, the whole string contains. */
  lemma ContainsInfix(s: string, lo: nat, hi: nat, sub: string)
    requires lo <= hi <= |s|
    requires Contains(s[lo..hi], sub)
    ensures Contains(s, sub)
  {
    var t := s[lo..hi];
    var i :| 0 <= i <= |t| && sub <= t[i..];
    forall k | 0 <= k < |sub|
      ensures sub[k] == s[lo + i..][k]
    {
      assert sub[k] == t[i..][k];
    }
    assert sub <= s[lo + i..];
  }

  /** A non-space character of `s` survives stripping. */
  lemma StripKeeps(s: string, c: char)
    requires c in s && !IsSpace(c)
    ensures c in Strip(s)
  {
    var p :| 0 <= p < |s| && s[p] == c;
    var lo := LeadCount(s);
    var n := TrailCount(s);
    assert lo <= p < |s| - n;
    assert Strip(s)[p - lo] == c;
  }

  /** Whatever the stripped form contains, the original contains. */
  lemma ContainsStripped(s: string, sub: string)
    requires Contains(Strip(s), sub)
    ensures Contains(s, sub)
  {
    var lo := LeadCount(s);
    if lo == |s| {
      assert sub <= s[0..];
    } else {
      ContainsInfix(s, lo, |s| - TrailCount(s), sub);
    }
  }

  /** A string that lacks the first character of `sub` cannot contain `sub`. */
  lemma MissingFirstChar(s: string, sub: string)
    requires |sub| > 0 && sub[0] !in s
    ensures !Contains(s, sub)
  {
    forall i | 0 <= i <= |s|
      ensures !(sub <= s[i..])
    {
      if i < |s| {
        assert s[i..][0] == s[i];
      }
    }
  }

  /** Position of the first occurrence of `c` in `s`. */
  function IndexOf(s: string, c: char): (i: nat)
    requires c in s
    ensures i < |s| && s[i] == c
    ensures c !in s[..i]
  {
    if s[0] == c then 0
    else
      var j := IndexOf(s[1..], c);
      assert s[..1 + j] == [s[0]] + s[1..][..j];
      1 + j
  }

  /** The first `c` of `p + [c] + rest` is the one after `p` when `p` has none. */
  lemma {:induction false} IndexOfFirst(p: string, c: char, rest: string)
    requires c !in p
    ensures c in p + [c] + rest
    ensures IndexOf(p + [c] + rest, c) == |p|
  {
    var s := p + [c] + rest;
    assert s[|p|] == c;
    if |p| > 0 {
      assert s[1..] == p[1..] + [c] + rest;
      IndexOfFirst(p[1..], c, rest);
    }
  }

  /** A separator-free head, a separator and a tail hold one separator more
      than the tail. */
  lemma SeparatorCount(head: string, sep: char, tail: string)
    requires sep !in head
    ensures multiset(head + [sep] + tail)[sep] == multiset(tail)[sep] + 1
  {
    assert multiset(head + [sep] + tail) == multiset(head) + multiset{sep} + multiset(tail);
  }

  /** Python's `s.split(sep)` for a one-character separator: the pieces
      between consecutive separators, empty pieces included. */
  function Split(s: string, sep: char): (parts: seq<string>)
    ensures |parts| == multiset(s)[sep] + 1
    ensures forall k :: 0 <= k < |parts| ==> sep !in parts[k]
    decreases |s|
  {
    if sep !in s then [s]
    else
      var i := IndexOf(s, sep);
      var head, tail := s[..i], s[i + 1..];
      assert s == head + [sep] + tail;
      SeparatorCount(head, sep, tail);
      [head] + Split(tail, sep)
  }

  /** Python's `sep.join(parts)`. */
  function Join(parts: seq<string>, sep: char): string {
    if |parts| == 0 then []
    else if |parts| == 1 then parts[0]
    else parts[0] + [sep] + Join(parts[1..], sep)
  }

  /** A join of non-empty pieces with no whitespace at their ends is
      non-empty and has no whitespace at its ends. */
  lemma {:induction false} JoinEdges(parts: seq<string>, sep: char)
    requires |parts| > 0
    requires forall k :: 0 <= k < |parts| ==> parts[k] != [] && EdgesNonSpace(parts[k])
    ensures Join(parts, sep) != [] && EdgesNonSpace(Join(parts, sep))
  {
    if |parts| > 1 {
      JoinEdges(parts[1..], sep);
      var rest := Join(parts[1..], sep);
      var s := parts[0] + [sep] + rest;
      assert s[0] == parts[0][0] && s[|s| - 1] == rest[|rest| - 1];
    }
  }

  /** A character other than the separator that no piece holds is not in
      the join. */
  lemma {:induction false} JoinAvoids(parts: seq<string>, sep: char, c: char)
    requires c != sep
    requires forall k :: 0 <= k < |parts| ==> c !in parts[k]
    ensures c !in Join(parts, sep)
  {
    if |parts| > 1 {
      JoinAvoids(parts[1..], sep, c);
    }
  }

  /** Joining the pieces of a split gives back the original string. */
  lemma {:induction false} JoinSplit(s: string, sep: char)
    ensures Join(Split(s, sep), sep) == s
    decreases |s|
  {
    if sep in s {
      var i := IndexOf(s, sep);
      JoinSplit(s[i + 1..], sep);
      assert s == s[..i] + [sep] + s[i + 1..];
    }
  }

  /** Splitting a join gives back the pieces, provided none of them holds
      the separator. */
  lemma {:induction false} SplitJoin(parts: seq<string>, sep: char)
    requires |parts| > 0
    requires forall k :: 0 <= k < |parts| ==> sep !in parts[k]
    ensures Split(Join(parts, sep), sep) == parts
  {
    if |parts| > 1 {
      var p := parts[0];
      var rest := Join(parts[1..], sep);
      var s := p + [sep] + rest;
      assert Join(parts, sep) == s;
      IndexOfFirst(p, sep, rest);
      assert s[..|p|] == p;
      assert s[|p| + 1..] == rest;
      SplitJoin(parts[1..], sep);
      assert Split(s, sep) == [p] + Split(rest, sep);
      assert parts == [p] + parts[1..];
    }
  }

  /** The list comprehension `[x.strip() for x in xs if keep(x)]`. */
  function FilterStrip(xs: seq<string>, keep: string -> bool): (ys: seq<string>)
    ensures |ys| <= |xs|
    ensures |ys| == |xs| <==> forall i :: 0 <= i < |xs| ==> keep(xs[i])
  {
    if |xs| == 0 then []
    else
      var init := xs[..|xs| - 1];
      var last := xs[|xs| - 1];
      var ys := FilterStrip(init, keep);
      assert (forall i :: 0 <= i < |xs| ==> keep(xs[i])) <==>
             (keep(last) && forall i :: 0 <= i < |init| ==> keep(init[i])) by {
        if !(forall i :: 0 <= i < |init| ==> keep(init[i])) {
          var i :| 0 <= i < |init| && !keep(init[i]);
          assert init[i] == xs[i];
        }
      }
      ys + (if keep(last) then [Strip(last)] else [])
  }

  /** The positions of `xs` that the comprehension keeps, in order. */
  ghost function KeptIndices(xs: seq<string>, keep: string -> bool): seq<nat> {
    if |xs| == 0 then []
    else KeptIndices(xs[..|xs| - 1], keep) + (if keep(xs[|xs| - 1]) then [|xs| - 1] else [])
  }

  ghost predicate SelectsInOrder(xs: seq<string>, keep: string -> bool, ys: seq<string>, idx: seq<nat>) {
    && |ys| == |idx|
    && (forall k :: 0 <= k < |idx| ==> idx[k] < |xs| && ys[k] == Strip(xs[idx[k]]))
    && (forall k, l :: 0 <= k < l < |idx| ==> idx[k] < idx[l])
    && (forall i :: 0 <= i < |xs| ==> (keep(xs[i]) <==> i in idx))
  }

  /** Every kept position is in range, holds an element `keep` accepts,
      and the positions increase strictly. */
  lemma {:induction false} KeptIndicesSound(xs: seq<string>, keep: string -> bool)
    ensures forall k :: 0 <= k < |KeptIndices(xs, keep)| ==>
      KeptIndices(xs, keep)[k] < |xs| && keep(xs[KeptIndices(xs, keep)[k]])
    ensures forall k, l :: 0 <= k < l < |KeptIndices(xs, keep)| ==>
      KeptIndices(xs, keep)[k] < KeptIndices(xs, keep)[l]
  {
    if |xs| > 0 {
      var init := xs[..|xs| - 1];
      KeptIndicesSound(init, keep);
      var idx0 := KeptIndices(init, keep);
      var idx := KeptIndices(xs, keep);
      assert idx == idx0 + (if keep(xs[|xs| - 1]) then [|xs| - 1] else []);
      forall k | 0 <= k < |idx0|
        ensures idx[k] == idx0[k] && idx0[k] < |init| && xs[idx0[k]] == init[idx0[k]]
      {
      }
    }
  }

  /** Every position whose element `keep` accepts is kept. */
  lemma {:induction false} KeptIndicesComplete(xs: seq<string>, keep: string -> bool)
    ensures forall i :: 0 <= i < |xs| && keep(xs[i]) ==> i in KeptIndices(xs, keep)
  {
    if |xs| > 0 {
      var init := xs[..|xs| - 1];
      KeptIndicesComplete(init, keep);
      forall i | 0 <= i < |init| && keep(xs[i])
        ensures i in KeptIndices(xs, keep)
      {
        assert init[i] == xs[i];
      }
    }
  }

  /** The k-th output is the stripped element at the k-th kept position. */
  lemma {:induction false} FilterStripAt(xs: seq<string>, keep: string -> bool)
    ensures var ys, idx := FilterStrip(xs, keep), KeptIndices(xs, keep);
      && |ys| == |idx|
      && forall k :: 0 <= k < |idx| ==> idx[k] < |xs| && ys[k] == Strip(xs[idx[k]])
  {
    KeptIndicesSound(xs, keep);
    if |xs| > 0 {
      var init := xs[..|xs| - 1];
      FilterStripAt(init, keep);
      var last := xs[|xs| - 1];
      var ys0, idx0 := FilterStrip(init, keep), KeptIndices(init, keep);
      var ys, idx := FilterStrip(xs, keep), KeptIndices(xs, keep);
      assert ys == ys0 + (if keep(last) then [Strip(last)] else []);
      assert idx == idx0 + (if keep(last) then [|xs| - 1] else []);
      forall k | 0 <= k < |idx|
        ensures idx[k] < |xs| && ys[k] == Strip(xs[idx[k]])
      {
        if k < |idx0| {
          assert idx[k] == idx0[k] && ys[k] == ys0[k];
          assert init[idx0[k]] == xs[idx0[k]];
        }
      }
    }
  }

  /** The comprehension yields one stripped element per kept position, in
      the original order: no element is dropped unless `keep` rejects it,
      none is duplicated and none is moved. */
  lemma {:induction false} FilterStripInOrder(xs: seq<string>, keep: string -> bool)
    ensures SelectsInOrder(xs, keep, FilterStrip(xs, keep), KeptIndices(xs, keep))
  {
    KeptIndicesSound(xs, keep);
    KeptIndicesComplete(xs, keep);
    FilterStripAt(xs, keep);
  }

  /** When every element is kept and already stripped, the comprehension
      returns its input unchanged. */
  lemma {:induction false} FilterStripKeepsAll(xs: seq<string>, keep: string -> bool)
    requires forall i :: 0 <= i < |xs| ==> keep(xs[i]) && Strip(xs[i]) == xs[i]
    ensures FilterStrip(xs, keep) == xs
  {
    if |xs| > 0 {
      FilterStripKeepsAll(xs[..|xs| - 1], keep);
      assert xs == xs[..|xs| - 1] + [xs[|xs| - 1]];
    }
  }

  /** The comprehension distributes over concatenation of its input. */
  lemma {:induction false} FilterStripAppend(a: seq<string>, b: seq<string>, keep: string -> bool)
    ensures FilterStrip(a + b, keep) == FilterStrip(a, keep) + FilterStrip(b, keep)
    decreases |b|
  {
    if |b| > 0 {
      var b0 := b[..|b| - 1];
      assert (a + b)[..|a + b| - 1] == a + b0;
      FilterStripAppend(a, b0, keep);
    } else {
      assert a + b == a;
    }
  }
}
